=== FILE: README.md ===
# Portfolio frame player and UI state rules, modelled in Dafny

This project models the decision logic of a personal portfolio site. The site shows a
scroll-scrubbed "3D model": a sequence of 300 pre-rendered images drawn on a canvas.
Two implementations of that player exist, and both are modelled separately:

- the React component `ModelAnimation`;
- the legacy standalone `public/script.js`.

The model also covers four small pieces of UI state:

- the skills section's proficiency colouring and tab panel;
- the navbar's active-section tracking and drawer;
- the theme provider's persisted light/dark mode.

Everything is pure functions over immutable records. Browser reads become parameters:

- scroll offset, page and viewport heights, canvas size;
- each image's load state (`Canvas.Slot`);
- section offsets (`Navbar.Layout`);
- client storage (`Theme.Storage`).

Image loading is modelled as a sequence of settle outcomes in completion order. The
order is arbitrary, and every property is proved for every order.

Scroll and placement arithmetic uses Dafny `real` and `.Floor` as an exact stand-in for
JavaScript doubles. Progress percentages use exact integer division.

Modules, one per file: `Wrappers` (Option), `Decimal` (number to string, `padStart`,
parse), `FrameNaming` (shared image path convention), `Canvas` (image slots,
aspect-fit placement, surface), `ModelAnimation`, `LegacyScript`, `Skills`, `Navbar`,
`Theme`.

Behaviours of the code worth knowing:

- The scroll mapping has no lower clamp. A negative offset gives a negative frame
  (`ModelAnimation.NegativeScrollNotClamped`).
- If frame 0 fails to load, neither version starts the background preload. The
  component stays in its loading state for good (`ModelAnimation.Mount`,
  `LegacyScript.ImageSequence`).
- The legacy `setAnimationFrame` rejects out-of-range input. It does not clamp.
- In the component, loading always ends once every load has settled. The progress shown
  reaches 100 only when the last load to settle succeeded, because failures do not
  update it.
- The legacy counter counts only successful loads. So one failed frame leaves the
  loading indicator on screen.

## Model

| member | source | states |
|---|---|---|
| Decimal.NatToString | public/script.js:324 | `toString()` of a non-negative integer is a non-empty run of digits, with a leading 0 only for zero itself |
| Decimal.PadStart | public/script.js:324 | `padStart(width, fill)` leaves a string at least as wide untouched, and otherwise prefixes fill characters up to the width, keeping the string as the suffix |
| Decimal.ParseNatToString | public/script.js:324 | parsing the decimal rendering of a number gives the number back |
| Decimal.PaddedRoundTrip | public/script.js:324 | zero-padding with `padStart` keeps the value: the padded digits parse to the same number |
| FrameNaming.ImagePath | src/components/ModelAnimation.jsx:23-25 | a frame path starts with `/images/male`, ends with `.png`, and has exactly four digits between them for numbers below 10000 |
| FrameNaming.ImagePathRoundTrip | src/components/ModelAnimation.jsx:23-25 | the frame number can be read back from its path for every four-digit number |
| FrameNaming.ImagePathInjective | public/script.js:323-327 | distinct frame numbers name distinct files |
| FrameNaming.ImagePathExamples | public/script.js:323-327 | frame numbers 1 and 300 give `male0001.png` and `male0300.png` |
| ModelAnimation.PreloadPath | src/components/ModelAnimation.jsx:20-25 | `preloadImage(index)` requests a path with the fixed prefix, four digits for every frame index |
| ModelAnimation.PreloadPathNames | src/components/ModelAnimation.jsx:16-25 | frame index i names file number i + 1, so the 300 frames name 300 distinct files |
| ModelAnimation.PreloadPathExamples | src/components/ModelAnimation.jsx:16-25 | index 0 requests `male0001.png` and index 299 requests `male0300.png` |
| ModelAnimation.HandleKeyDown | src/components/ModelAnimation.jsx:40-61 | while loading every key is ignored; ArrowDown/PageDown advance one frame unless at the last; ArrowUp/PageUp go back one unless at the first; Home and End jump to the ends; the requested page scroll matches; in-range frames stay in range |
| ModelAnimation.ApplyKeysInRange | src/components/ModelAnimation.jsx:43-58 | any run of key presses from an in-range frame stays in range |
| ModelAnimation.StepsUndo | src/components/ModelAnimation.jsx:43-50 | away from the saturated end, a step back undoes a step forward and vice versa |
| ModelAnimation.ScrollFrame | src/components/ModelAnimation.jsx:185-213 | no frame when the page cannot scroll; the frame is at most the last; it is the last exactly when the offset reaches 85% of the scrollable distance; below that, frame k covers the k-th of 299 equal bands of that 85%; non-negative offsets give non-negative frames |
| ModelAnimation.BandBounds | src/components/ModelAnimation.jsx:199-213 | the floored interpolation is the last frame at or past the pin point, below it otherwise, and lies in the band its offset selects |
| ModelAnimation.ScrollFrameMonotone | src/components/ModelAnimation.jsx:199-213 | for fixed heights, scrolling further never shows an earlier frame |
| ModelAnimation.ScrollFrameExamples | src/components/ModelAnimation.jsx:199-213 | with 1000px of scrollable distance, offsets 0, 425 and 850 give frames 0, 149 and 299 |
| ModelAnimation.NegativeScrollNotClamped | src/components/ModelAnimation.jsx:206-213 | a negative offset maps to a negative frame: there is no lower clamp |
| ModelAnimation.HandleScroll | src/components/ModelAnimation.jsx:185-223 | an unscrollable page changes nothing; otherwise the offset is recorded, and the frame is written only when it differs from the frame the closure compares against |
| ModelAnimation.StaleScrollKeepsFrame | src/components/ModelAnimation.jsx:215-219 | compared against the mount-time frame 0, scrolling back to the top leaves frame 150 showing although the mapping gives 0 |
| ModelAnimation.HandleScrollLive | src/components/ModelAnimation.jsx:215-222 | compared against the live frame, the frame becomes the mapped frame and only the frame and offset change |
| ModelAnimation.ApplyScrollsInRange | src/components/ModelAnimation.jsx:185-223 | whichever frame the closure compares against (the mount-time 0 as written, or the live frame), any run of non-negative scroll events keeps the frame in range and does not touch the loading flag |
| ModelAnimation.Percent | src/components/ModelAnimation.jsx:128 | the progress percentage is at most 100 while the count is at most the frame count, and equals 100 only once every frame is counted |
| ModelAnimation.Settle | src/components/ModelAnimation.jsx:125-134 | every settle advances the counter; only a success updates the progress shown; nothing else changes |
| ModelAnimation.InitScrollAnimation | src/components/ModelAnimation.jsx:148-242 | the scroll animation is bound after the call and a second call changes nothing; the first call forces a render of the mount-time frame 0, aspect-fitted when its image is complete and leaving the canvas alone otherwise |
| ModelAnimation.AllSettled | src/components/ModelAnimation.jsx:140-144 | once everything has settled, loading ends and the scroll animation is bound, leaving frame, progress and counter alone; the canvas then shows the player's frame aspect-fitted if its image is complete, otherwise frame 0 aspect-fitted if the scroll animation was not yet bound and frame 0 is complete, otherwise what it showed |
| ModelAnimation.ShownProgress | src/components/ModelAnimation.jsx:125-133 | the progress shown never exceeds the percentage of the current counter |
| ModelAnimation.ShownProgressStep | src/components/ModelAnimation.jsx:125-133 | a successful settle shows the new counter's percentage; a failed one keeps the progress shown |
| ModelAnimation.ShownProgressSettled | src/components/ModelAnimation.jsx:125-133 | with all 299 background loads settled, the progress shown is 100 exactly when the last to settle succeeded |
| ModelAnimation.PreloadAllImages | src/components/ModelAnimation.jsx:116-145 | the counter is 1 plus the settled loads, failures included; loading ends exactly when all 299 have settled; the progress shown is the percentage of the counter at the last successful load, or 0 before any success, so at most 100; with all settled it is 100 exactly when the last load succeeded; with no success it stays 0; the canvas is untouched until loading ends and then shows frame 0 aspect-fitted if its image is complete |
| ModelAnimation.Mount | src/components/ModelAnimation.jsx:104-145 | a failed first frame leaves the initial loading state and a blank canvas; a loaded one is drawn stretched and stays so while loads are pending; once all have settled frame 0 is redrawn aspect-fitted |
| ModelAnimation.Fitted | src/components/ModelAnimation.jsx:93-101 | a complete frame is drawn inside the canvas |
| Canvas.SlotAt | src/components/ModelAnimation.jsx:86 | reading `images[i]` gives the cached entry for an index inside the array and `undefined` outside it |
| Canvas.Drawable | src/components/ModelAnimation.jsx:88 | the `img && img.complete` guard passes exactly when the index is inside the cache and that image is complete |
| ModelAnimation.RenderCurrentFrame | src/components/ModelAnimation.jsx:85-102 | without a complete image the canvas is untouched; otherwise the frame is drawn inside the canvas, centred, with its aspect ratio, filling one dimension |
| Canvas.Stretch | public/script.js:431 | the full-canvas `drawImage(img, 0, 0, width, height)` rectangle lies inside the canvas and is the only one that covers it exactly |
| Canvas.AspectFit | src/components/ModelAnimation.jsx:94-101 | the scale-to-fit rectangle lies inside the canvas with non-negative centred offsets, keeps the aspect ratio and touches one pair of edges |
| ModelAnimation.RenderOnChange | src/components/ModelAnimation.jsx:266-285 | while loading, or without a complete image, the canvas is untouched; otherwise it renders as `renderCurrentFrame` does |
| ModelAnimation.RenderShowsOnlyComplete | src/components/ModelAnimation.jsx:271-282 | if the canvas showed only a complete image before a render attempt, it still does after |
| LegacyScript.Files | public/script.js:323-327 | `files(index)` starts with `/images/male` and is at least as long as a four-digit path |
| LegacyScript.FilesNames | public/script.js:323-327 | `files(i)` names file number i + 1, the same path the component requests |
| LegacyScript.RenderKeeping | public/script.js:428-435 | without a complete image the canvas is untouched; otherwise the frame fills the canvas |
| LegacyScript.RenderClearing | public/script.js:547-554 | the canvas is cleared, and the frame drawn over it only when its image is complete |
| LegacyScript.RenderVariants | public/script.js:547-554 | the two render variants agree on complete frames; on incomplete ones they agree only when the canvas was already blank |
| LegacyScript.InitCanvasLoop | public/script.js:511-518 | `imageSeq.frame` is 1; with a path function in scope the loop appends one path per remaining frame and the rest of the body runs; without one, the first iteration's call aborts the body and nothing more is requested or cached |
| LegacyScript.InitCanvasAsWritten | public/script.js:505-518 | with `files` out of scope the loop aborts on its first call: no path requested, an empty cache, and the rest of the body does not run |
| LegacyScript.InitCanvasNeverDraws | public/script.js:499-554 | after `initCanvas()` as written, every resize render clears the canvas and draws nothing, for any frame and whatever the browser loaded |
| LegacyScript.InitCanvas | public/script.js:511-518 | with a path function in scope, one request per frame, each naming its own file, and the reported image states become the cache |
| LegacyScript.InitCanvasLoopRuns | public/script.js:511-518 | with a path function in scope, the loop run to the end builds exactly the state `InitCanvas` describes |
| LegacyScript.InitCanvasDraws | public/script.js:505-554 | with a path function in scope, a render shows frame 1 stretched once its image is complete and a blank canvas before |
| LegacyScript.SetAnimationFrame | public/script.js:447-456 | input outside 0..299 changes nothing; input inside sets both frame variables and renders |
| LegacyScript.SetAnimationFrameRejects | public/script.js:448 | -5 and 310 are rejected, not clamped |
| LegacyScript.KeyTarget | public/script.js:221-257 | exactly the six navigation keys map to a target: ±1 and ±10 steps that saturate at 0 and 299, Home 0, End 299; in-range frames give in-range targets |
| LegacyScript.ToggleAnimationPlay | public/script.js:459-467 | the paused flag flips and nothing else changes |
| LegacyScript.ToggleTwice | public/script.js:460 | two toggles restore the state |
| LegacyScript.HandleKey | public/script.js:218-266 | before the controls are exposed nothing happens; P toggles play; navigation keys call `setAnimationFrame` with the target computed from `window.currentFrame`, or 0 when it is unset; other keys do nothing |
| LegacyScript.InitialValid | public/script.js:330-337 | the player starts at frame 0, playing, on a blank canvas, with `window.currentFrame` unset, which is a valid state |
| LegacyScript.HandleKeyNeverRejected | public/script.js:219-257 | from a valid state every navigation key's target is accepted, and validity is kept |
| LegacyScript.KeyMapsDisagree | public/script.js:240-244 | ArrowDown is one frame forward in the component and ten frames back in the legacy script |
| LegacyScript.CountLoaded | public/script.js:406-407 | the success count is at most the number of outcomes, and equals it exactly when every load succeeded |
| LegacyScript.Percent | public/script.js:410 | the percentage is at most 100 while every frame is at most counted once, is 100 exactly at the frame count, and equals the component's percentage |
| LegacyScript.RefreshedPercent | public/script.js:408-411 | a refreshed progress text is a multiple of ten between 10 and 100 |
| LegacyScript.OnLoad | public/script.js:406-417 | each load counts once; the text refreshes only on multiples of 30 and at 300; the indicator goes once all 300 have loaded |
| LegacyScript.ShownText | public/script.js:401-410 | before 30 loads the initial text shows; after all 300 it shows 100% |
| LegacyScript.OnLoadShowsText | public/script.js:406-411 | each counted load keeps the indicator's text equal to the shown text for the new count |
| LegacyScript.ShownTextBounds | public/script.js:408-410 | the shown text is a multiple of ten percent, never above the real progress |
| LegacyScript.PreloadImages | public/script.js:399-426 | the counter is 1 plus the successful loads; the indicator stays exactly while some frame is unloaded, so with all settled it goes exactly when none failed; the text is the percentage at the last multiple of 30 loads reached (the initial text before 30), a multiple of ten not above the real progress |
| LegacyScript.ImageSequence | public/script.js:354-373 | a failed first frame shows the error text and starts no preload; a loaded one is drawn stretched and the preload decides the indicator |
| Skills.ProficiencyColor | src/components/sections/SkillsSection.jsx:62-67 | the four bands: at least 90 is success, 75 to 89 primary, 60 to 74 warning, below 60 error, each as an if-and-only-if |
| Skills.RankCountsThresholds | src/components/sections/SkillsSection.jsx:62-67 | a proficiency's tier is the number of thresholds (60, 75, 90) it reaches |
| Skills.ProficiencyColorMonotone | src/components/sections/SkillsSection.jsx:62-67 | a higher proficiency never gets a lower tier |
| Skills.SkillsDataInvariants | src/components/sections/SkillsSection.jsx:19-59 | every listed proficiency is between 70 and 100 and IPFS is at 70; no listed skill is in the error tier, and only IPFS is in the warning tier |
| Skills.HandleTabChange | src/components/sections/SkillsSection.jsx:73-75 | the selected tab becomes the clicked index |
| Skills.Rows | src/components/sections/SkillsSection.jsx:197-201 | one row per skill, in order, coloured by its proficiency; the reveal delay starts at 200 ms and grows by 200 ms per row |
| Skills.Panel | src/components/sections/SkillsSection.jsx:187-197 | a panel renders content exactly when its index is the selected tab, and then its category's rows |
| Skills.ExactlyOnePanel | src/components/sections/SkillsSection.jsx:187-197 | after choosing a listed category, exactly that category's panel renders |
| Navbar.SectionId | src/components/Navbar.jsx:63 | a section id is the link href without its first character |
| Navbar.SectionIdOfHref | src/components/Navbar.jsx:32-38 | stripping the `#` from an anchor gives back the id |
| Navbar.NavLinkIds | src/components/Navbar.jsx:32-38 | the link ids are home, about, skills, projects, contact, and they are distinct |
| Navbar.Probe | src/components/Navbar.jsx:64 | the probe line lies one third of the viewport height below the scroll offset, inside the viewport |
| Navbar.LastReached | src/components/Navbar.jsx:64-71 | reference search: the last position whose section exists with its top at or above the probe, and nothing reached after it; or none reached at all |
| Navbar.HandleScroll | src/components/Navbar.jsx:60-72 | the backward loop activates the last link, in link order, whose section exists with its top at or above `scrollY + innerHeight / 3`; if none qualifies the state is unchanged; the drawer is untouched |
| Navbar.HandleNavClick | src/components/Navbar.jsx:87-97 | for an existing section the page scrolls to its top, it becomes active and the drawer closes; for a missing one nothing changes |
| Navbar.HandleDrawerToggle | src/components/Navbar.jsx:83-85 | the drawer flag flips and the active section stays |
| Navbar.DrawerToggleTwice | src/components/Navbar.jsx:83-85 | two toggles restore the state |
| Navbar.Highlighted | src/components/Navbar.jsx:111 | for a `#` anchor, a link is shown selected exactly when its href is the active section's anchor |
| Navbar.AtMostOneHighlighted | src/components/Navbar.jsx:225-233 | in any state at most one link is highlighted |
| Navbar.ClickHighlightsExactly | src/components/Navbar.jsx:87-97 | clicking a link whose section exists highlights that link and no other |
| Navbar.InitialHighlightsHome | src/components/Navbar.jsx:54 | initially exactly the Home link is highlighted |
| Theme.GetItem | src/context/ThemeContext.jsx:60 | reading storage gives the stored value exactly when the key is present |
| Theme.InitialMode | src/context/ThemeContext.jsx:60-61 | the initial mode is the stored value when present and non-empty, dark otherwise, and never empty |
| Theme.ToggleMode | src/context/ThemeContext.jsx:65-67 | the result is light or dark, and it is dark exactly when the mode was light |
| Theme.ToggleModeTwice | src/context/ThemeContext.jsx:66 | from light or dark two toggles return the original; any other value toggles to light |
| Theme.Persist | src/context/ThemeContext.jsx:74-76 | after the effect `theme-mode` holds the mode and every other key is unchanged |
| Theme.Mount | src/context/ThemeContext.jsx:58-76 | the mounted mode comes from the stored preference, and the preference then equals the mode |
| Theme.ToggleColorMode | src/context/ThemeContext.jsx:63-76 | a toggle applies the toggle rule and leaves the preference equal to the new mode |
| Theme.ReachableStates | src/context/ThemeContext.jsx:58-76 | after mounting and any number of toggles the preference equals the mode, a reload restores the same mode, toggled modes are light or dark, and other keys are kept |
| Theme.PaletteFor | src/context/ThemeContext.jsx:78-85 | the dark palette is chosen exactly for mode dark; every other value gets the light palette |

## Findings

| source | as written | input that shows it | evidently intended | confidence | as-written member | corrected member |
|---|---|---|---|---|---|---|
| src/components/ModelAnimation.jsx:216-219 | the scroll handler is created in a mount-only effect, so it compares the mapped frame with the first render's `currentFrame`, 0; a mapped frame of 0 is therefore never written | with frame 150 showing and 1000px of scrollable distance, scroll to offset 0: the mapping gives 0 and frame 150 stays | skip the update only when the mapped frame equals the live frame, so scrolling back to the top shows frame 0 | medium; not executed | ModelAnimation.StaleScrollKeepsFrame | ModelAnimation.HandleScrollLive |
| public/script.js:514 | `initCanvas()` calls `files(i)`, but `files` is declared inside `canvas()` (line 323), so the first call throws a ReferenceError before any image is pushed; the tween, `forceRenderCanvas` and the first-frame `onload` are never set up, and the resize listener's `render` finds an empty cache | call `initCanvas()` on a page with a canvas, then resize the window: the canvas is cleared and stays blank | a path function in scope for `initCanvas()`, so the loop requests all 300 frames and the first-frame `onload` draws frame 1 | high; not executed | LegacyScript.InitCanvasNeverDraws | LegacyScript.InitCanvas |

`ModelAnimation.HandleScroll` takes the compared frame as a parameter. The as-written
lemma passes the mount-time value. `ModelAnimation.ApplyScrolls` takes the same choice as
an option, and its range lemma holds for both handlers. `LegacyScript.InitCanvasLoop`
models the `initCanvas()` loop once, with or without a path function in scope; `LegacyScript.InitCanvasAsWritten`
is its aborted run, and `LegacyScript.InitCanvasDraws` states the corrected
first render.

## Left out

- ModelAnimation.HandleKeyDown: modelled as a function of the loading flag and frame it is given. The live listener is bound in a mount-only effect and keeps seeing `isLoading = true`, so on the page it never steps. The model does not claim the page reaches these branches.
- ModelAnimation.RenderCurrentFrame: the frame is a parameter. The forced render in `initScrollAnimation` passes the mount-time frame 0 (`ModelAnimation.InitScrollAnimation`); the resize handler's render is not modelled, since resizes are browser events.
- ModelAnimation.Mount: a failed frame-0 load is modelled as a slot that is not complete. In a browser a broken image also reports `complete`, but nothing renders after a failed first load, so no draw depends on it.
- ModelAnimation.ScrollFrame: exact real arithmetic. IEEE-754 rounding of the 0.85 product and of the division is not modelled.
- ModelAnimation.Percent: exact integer division `(count * 100) / 300` in place of the floored double expression.
- LegacyScript.Percent: exact integer division in place of the floored double expression.
- Canvas.AspectFit: image sizes are strictly positive. A complete but broken image has zero size and would make the ratio infinite; that case is not modelled.
- Spacer insertion (`ensureFullPageCoverage`): DOM measurement driven by timers.
- Event-listener registration and cleanup, `requestAnimationFrame`, timers, console logging, `window.scrollBy`/`scrollTo` effects. These are browser plumbing. Requested scrolls are returned as values.
- GSAP/ScrollTrigger/LocomotiveScroll wiring in `public/script.js`, and pinning. These are thin wrappers over libraries whose code is not visible, and tween snapping is library behaviour. So `imageSeq.frame` changes only through `setAnimationFrame` here, and `window.currentFrame` is set only there.
- The debug overlay, `updateDebug`, `checkCanvasStatus`, `forceRender`, the GitHub button, `scaleImage` and the first-image IIFE of `public/script.js`. These are debugging or duplicate drawing paths with no state the player reads.
- No other function in `public/script.js` calls `canvas()`, `initCanvas()` or `setupKeyboardControls()`. The one call among them is `initCanvas()` scheduling itself again through `setTimeout(initCanvas, 1000)` (line 485). The model treats the three as entry points the hosting page invokes, and the page markup is not part of this model.
- LegacyScript.InitCanvasLoop: starts after `initCanvas()` has found a canvas element and its 2D context. The retry every second while no canvas exists (lines 483-486) and the early return without a context (lines 491-494) are left out: they are a DOM lookup and a timer, and neither reaches the loop.
- The `initCanvas()` tween and pins. They are GSAP wiring, as above; the corrected `LegacyScript.InitCanvas` records only that the rest of the body runs.
- LegacyScript.HandleKey: `window.currentFrame || 0` is modelled for an undefined or integer value. NaN and fractional frames are not.
- Skill descriptions, names shown in tooltips, and MUI styling. These are display text. Proficiencies are integers, as every listed one is.
- The navbar's hide-on-scroll app bar, the mobile breakpoint, and smooth scrolling. These are library behaviour.
- The MUI theme object apart from the palette choice (typography, component overrides), and storage failures.
- `src/App.jsx`, `src/AppMUI.jsx`, `src/main.jsx`, `public/fix-image.js`, and the anime.js components and `ProjectCard` are not part of this model. They hold static layout, library-driven visual effects or bootstrap code.

=== FILE: canvas.dfy ===
/** The drawing surface both frame players paint on, with images abstracted to a load
    state and, once complete, their intrinsic size. Canvas sizes are whole pixels (the
    element's `width`/`height` attributes); placement arithmetic is exact over reals. */
module Canvas {

  /** A strictly positive image dimension. */
  type Extent = r: real | r > 0.0 witness 1.0

  /** An entry of the image cache: never requested (`undefined`), requested but not
      complete, or complete with its intrinsic size. */
  datatype Slot = Missing | Pending | Complete(width: Extent, height: Extent)

  /** Reading `images[i]` from a JavaScript array: out-of-range indices give `undefined`. */
  function SlotAt(images: seq<Slot>, i: int): (s: Slot)
    ensures !(0 <= i < |images|) ==> s == Missing
    ensures 0 <= i < |images| ==> s == images[i]
  {
    if 0 <= i < |images| then images[i] else Missing
  }

  /** The `img && img.complete` guard every render path applies. */
  predicate Drawable(images: seq<Slot>, i: int)
    ensures Drawable(images, i) ==> 0 <= i < |images| && images[i].Complete?
    ensures 0 <= i < |images| && images[i].Complete? ==> Drawable(images, i)
  {
    SlotAt(images, i).Complete?
  }

  /** Destination rectangle of a `drawImage` call. */
  datatype Placement = Placement(x: real, y: real, w: real, h: real)

  /** What the canvas currently shows: nothing (just cleared) or one frame. */
  datatype Surface = Blank | Shows(frame: int, at: Placement)

  function Min(a: real, b: real): (m: real)
    ensures m <= a && m <= b
    ensures m == a || m == b
  {
    if a <= b then a else b
  }

  /** The rectangle lies inside a `cw` by `ch` canvas. */
  predicate Inside(p: Placement, cw: nat, ch: nat) {
    && 0.0 <= p.x && 0.0 <= p.w && p.x + p.w <= cw as real
    && 0.0 <= p.y && 0.0 <= p.h && p.y + p.h <= ch as real
  }

  /** Uniform scale by min(cw/iw, ch/ih), centred. */
  function AspectFit(iw: Extent, ih: Extent, cw: nat, ch: nat): (p: Placement)
    ensures Inside(p, cw, ch)
    ensures p.x + p.w + p.x == cw as real && p.y + p.h + p.y == ch as real
    ensures p.w * ih == p.h * iw
    ensures p.w == cw as real || p.h == ch as real
  {
    var hRatio := cw as real / iw;
    var vRatio := ch as real / ih;
    var ratio := Min(hRatio, vRatio);
    assert iw * hRatio == cw as real;
    assert ih * vRatio == ch as real;
    assert iw * ratio <= cw as real;
    assert ih * ratio <= ch as real;
    Placement((cw as real - iw * ratio) / 2.0, (ch as real - ih * ratio) / 2.0, iw * ratio, ih * ratio)
  }

  /** `drawImage(img, 0, 0, canvas.width, canvas.height)`: the whole canvas, ignoring
      the image's aspect ratio. */
  function Stretch(cw: nat, ch: nat): (p: Placement)
    ensures Inside(p, cw, ch)
    ensures p.w == cw as real && p.h == ch as real
    ensures forall q :: Inside(q, cw, ch) && q.w == cw as real && q.h == ch as real ==> q == p
  {
    Placement(0.0, 0.0, cw as real, ch as real)
  }
}

=== FILE: decimal.dfy ===
/** Decimal rendering of non-negative integers as JavaScript's `Number.prototype.toString`
    produces them below 10^21 (where it switches to exponent notation; frame numbers stay
    far below), `String.prototype.padStart` with a one-character filler, and the
    inverse parse used to state round trips. */
module Decimal {

  predicate IsDigit(c: char) {
    '0' <= c <= '9'
  }

  predicate AllDigits(s: string) {
    forall i :: 0 <= i < |s| ==> IsDigit(s[i])
  }

  function DigitValue(c: char): (d: nat)
    requires IsDigit(c)
    ensures d < 10
  {
    c as int - '0' as int
  }

  function DigitChar(d: nat): (c: char)
    requires d < 10
    ensures IsDigit(c) && DigitValue(c) == d
  {
    ('0' as int + d) as char
  }

  function Pow10(k: nat): (p: nat)
    ensures p >= 1
  {
    if k == 0 then 1 else 10 * Pow10(k - 1)
  }

  /** `n.toString()` for a non-negative integer: no sign, no leading zero. */
  function NatToString(n: nat): (s: string)
    ensures |s| >= 1
    ensures AllDigits(s)
    ensures s[0] == '0' <==> n == 0
  {
    if n < 10 then [DigitChar(n)]
    else NatToString(n / 10) + [DigitChar(n % 10)]
  }

  /** The value of a string of decimal digits, most significant first. */
  function ParseDigits(s: string): nat
    requires AllDigits(s)
  {
    if |s| == 0 then 0
    else ParseDigits(s[..|s| - 1]) * 10 + DigitValue(s[|s| - 1])
  }

  function Repeat(c: char, k: nat): (r: string)
    ensures |r| == k
    ensures forall i :: 0 <= i < k ==> r[i] == c
  {
    seq(k, _ => c)
  }

  /** `s.padStart(width, fill)`: left-pads with `fill` up to `width`, never truncates. */
  function PadStart(s: string, width: nat, fill: char): (r: string)
    ensures |r| == if |s| >= width then |s| else width
    ensures r[|r| - |s|..] == s
    ensures forall i :: 0 <= i < |r| - |s| ==> r[i] == fill
  {
    if |s| >= width then s else Repeat(fill, width - |s|) + s
  }

  /** Parsing undoes rendering. */
  lemma {:induction false} ParseNatToString(n: nat)
    ensures ParseDigits(NatToString(n)) == n
  {
    var s := NatToString(n);
    if n < 10 {
      assert s[..|s| - 1] == [];
    } else {
      assert s[..|s| - 1] == NatToString(n / 10);
      ParseNatToString(n / 10);
    }
  }

  /** A number below 10^k renders in at most k digits. */
  lemma {:induction false} NatToStringLength(n: nat, k: nat)
    requires 1 <= k && n < Pow10(k)
    ensures |NatToString(n)| <= k
  {
    if n >= 10 {
      assert k != 1 by { assert Pow10(1) == 10; }
      NatToStringLength(n / 10, k - 1);
    }
  }

  /** A string of zeros has value zero. */
  lemma {:induction false} ParseZeros(k: nat)
    ensures AllDigits(Repeat('0', k)) && ParseDigits(Repeat('0', k)) == 0
  {
    if k > 0 {
      assert Repeat('0', k)[..k - 1] == Repeat('0', k - 1);
      ParseZeros(k - 1);
    }
  }

  /** Leading zeros do not change the value of a digit string. */
  lemma {:induction false} ParseLeadingZeros(k: nat, s: string)
    requires AllDigits(s)
    ensures AllDigits(Repeat('0', k) + s)
    ensures ParseDigits(Repeat('0', k) + s) == ParseDigits(s)
  {
    var t := Repeat('0', k) + s;
    if |s| == 0 {
      assert t == Repeat('0', k);
      ParseZeros(k);
    } else {
      assert t[..|t| - 1] == Repeat('0', k) + s[..|s| - 1];
      ParseLeadingZeros(k, s[..|s| - 1]);
    }
  }

  /** Zero-padding a rendered number and parsing it back gives the number. */
  lemma PaddedRoundTrip(n: nat, width: nat)
    ensures AllDigits(PadStart(NatToString(n), width, '0'))
    ensures ParseDigits(PadStart(NatToString(n), width, '0')) == n
  {
    var s := NatToString(n);
    ParseNatToString(n);
    if |s| < width {
      ParseLeadingZeros(width - |s|, s);
    }
  }
}

=== FILE: frame_naming.dfy ===
/** The asset naming convention both frame players share: frame number k (counted
    from 1) lives at `/images/male` + k zero-padded to four digits + `.png`. */
module FrameNaming {
  import opened Wrappers
  import opened Decimal

  const Prefix: string := "/images/male"
  const Suffix: string := ".png"
  const Width: nat := 4

  /** The path of frame number `number` (1-based). Numbers of five or more digits are
      not truncated, exactly as `padStart` leaves them. */
  function ImagePath(number: nat): (p: string)
    ensures |p| >= |Prefix| + Width + |Suffix|
    ensures p[..|Prefix|] == Prefix
    ensures p[|p| - |Suffix|..] == Suffix
    ensures number < Pow10(Width) ==> |p| == |Prefix| + Width + |Suffix|
  {
    FitsWidth(number);
    Prefix + PadStart(NatToString(number), Width, '0') + Suffix
  }

  lemma FitsWidth(number: nat)
    ensures number < Pow10(Width) ==> |NatToString(number)| <= Width
  {
    if number < Pow10(Width) {
      NatToStringLength(number, Width);
    }
  }

  /** The inverse of `ImagePath` on four-digit names: the frame number a path
      addresses, or None when the path does not follow the convention. */
  function ParseImagePath(p: string): (r: Option<nat>)
    ensures r.Some? ==> |p| == |Prefix| + Width + |Suffix| && p[..|Prefix|] == Prefix
  {
    if |p| == |Prefix| + Width + |Suffix|
       && p[..|Prefix|] == Prefix
       && p[|Prefix| + Width..] == Suffix
       && AllDigits(p[|Prefix|..|Prefix| + Width])
    then Some(ParseDigits(p[|Prefix|..|Prefix| + Width]))
    else None
  }

  /** Every four-digit frame number survives rendering and parsing. */
  lemma ImagePathRoundTrip(number: nat)
    requires number < Pow10(Width)
    ensures ParseImagePath(ImagePath(number)) == Some(number)
  {
    var digits := PadStart(NatToString(number), Width, '0');
    var p := ImagePath(number);
    NatToStringLength(number, Width);
    assert p == Prefix + digits + Suffix;
    assert p[|Prefix|..|Prefix| + Width] == digits;
    assert p[|Prefix| + Width..] == Suffix;
    PaddedRoundTrip(number, Width);
  }

  /** Distinct four-digit frame numbers name distinct files. */
  lemma ImagePathInjective(a: nat, b: nat)
    requires a < Pow10(Width) && b < Pow10(Width)
    requires ImagePath(a) == ImagePath(b)
    ensures a == b
  {
    ImagePathRoundTrip(a);
    ImagePathRoundTrip(b);
  }

  /** The first and last frames of the 300-frame sequence. */
  lemma ImagePathExamples()
    ensures ImagePath(1) == "/images/male0001.png"
    ensures ImagePath(300) == "/images/male0300.png"
  {
    assert NatToString(1) == "1";
    assert NatToString(3) == "3";
    assert NatToString(30) == "30";
    assert NatToString(300) == "300";
  }
}

=== FILE: legacy_script.dfy ===
/** The standalone frame-sequence player of `public/script.js`: its own copy of the
    path naming, a global `setAnimationFrame` that rejects out-of-range frames instead
    of clamping, a keyboard map with single and ten-frame steps, a preload counter that
    counts only successful loads, two `render` variants and a play/pause flag. The GSAP
    tween that drives `imageSeq.frame` from scroll is library behaviour and is not part
    of this model. */
module LegacyScript {
  import opened Wrappers
  import opened FrameNaming
  import opened Canvas
  import ModelAnimation

  const FrameCount: nat := 300
  const LastFrame: int := 299
  /** The progress text is refreshed every this many loads. */
  const ProgressEvery: nat := 30

  predicate InRange(frame: int) {
    0 <= frame < FrameCount
  }

  // ---------------------------------------------------------------------------
  // Asset naming

  /** `files(index)`. */
  function Files(index: nat): (p: string)
    ensures |p| >= |Prefix| + Width + |Suffix|
    ensures p[..|Prefix|] == Prefix
  {
    ImagePath(index + 1)
  }

  /** Every frame index names its own file, numbered from 1; the two players agree on
      every name. */
  lemma FilesNames(index: nat)
    requires index < FrameCount
    ensures ParseImagePath(Files(index)) == Some(index + 1)
    ensures Files(index) == ModelAnimation.PreloadPath(index)
    ensures Files(0) == "/images/male0001.png" && Files(LastFrame) == "/images/male0300.png"
  {
    ImagePathRoundTrip(index + 1);
    ImagePathExamples();
  }

  // ---------------------------------------------------------------------------
  // Player state

  /** The closure state of `canvas()` plus the `window.currentFrame` global. */
  datatype Legacy = Legacy(
    frame: int,                // `imageSeq.frame`
    currentFrame: Option<int>, // `window.currentFrame`, undefined until first set
    paused: bool,              // `isPaused`
    surface: Surface)

  const Initial: Legacy := Legacy(0, None, false, Blank)

  /** `render` inside `canvas()`: draws the frame stretched over the canvas when its
      image is complete, and otherwise leaves the canvas untouched. */
  function RenderKeeping(s: Surface, images: seq<Slot>, frame: int, cw: nat, ch: nat): (r: Surface)
    ensures !Drawable(images, frame) ==> r == s
    ensures Drawable(images, frame) ==> r.Shows? && r.frame == frame && r.at == Stretch(cw, ch)
  {
    if Drawable(images, frame) then Shows(frame, Stretch(cw, ch)) else s
  }

  /** `render` inside `initCanvas()`: always clears, then draws the frame stretched only
      when its image is complete. */
  function RenderClearing(images: seq<Slot>, frame: int, cw: nat, ch: nat): (r: Surface)
    ensures !Drawable(images, frame) ==> r == Blank
    ensures Drawable(images, frame) ==> r.Shows? && r.frame == frame && r.at == Stretch(cw, ch)
  {
    if Drawable(images, frame) then Shows(frame, Stretch(cw, ch)) else Blank
  }

  /** The two variants agree on a complete frame and differ on an incomplete one
      exactly when the canvas was showing something. */
  lemma RenderVariants(s: Surface, images: seq<Slot>, frame: int, cw: nat, ch: nat)
    ensures Drawable(images, frame) ==>
      RenderKeeping(s, images, frame, cw, ch) == RenderClearing(images, frame, cw, ch)
    ensures !Drawable(images, frame) ==>
      (RenderKeeping(s, images, frame, cw, ch) == RenderClearing(images, frame, cw, ch) <==> s == Blank)
  {
  }

  /** What `initCanvas()` leaves behind for its resize listener: the paths it
      requested, the image cache `images`, `imageSeq.frame`, and whether the rest of
      its body (the tween, `forceRenderCanvas`, the first-frame `onload`) ran. */
  datatype CanvasInit = CanvasInit(requested: seq<string>, images: seq<Slot>, frame: int, completed: bool)

  /** The `initCanvas()` preload loop from iteration `i` on, with the paths `requested`
      and the cache `images` built so far; `slots` are the states the browser reports
      for the 300 images. Each iteration calls `files(i)`: when no path function is in
      scope that call throws a ReferenceError, which aborts the rest of the body, so the
      tween, `forceRenderCanvas` and the first-frame `onload` are never set up. Otherwise
      it requests the path and pushes the image. `imageSeq.frame` is already 1. */
  function InitCanvasLoop(filesInScope: bool, slots: seq<Slot>, i: nat, requested: seq<string>, images: seq<Slot>): (r: CanvasInit)
    requires |slots| == FrameCount && i <= FrameCount
    ensures r.frame == 1
    ensures r.completed <==> filesInScope || i == FrameCount
    ensures !filesInScope ==> r.requested == requested && r.images == images
    ensures filesInScope ==>
      |r.requested| == |requested| + (FrameCount - i) && r.requested[..|requested|] == requested
    decreases FrameCount - i
  {
    if i == FrameCount then CanvasInit(requested, images, 1, true)
    else if !filesInScope then CanvasInit(requested, images, 1, false)
    else InitCanvasLoop(filesInScope, slots, i + 1, requested + [Files(i)], images + [slots[i]])
  }

  /** `initCanvas()` as written: `files` is declared inside `canvas()`, so it is not in
      scope here and the loop stops at its first iteration. */
  function InitCanvasAsWritten(slots: seq<Slot>): (r: CanvasInit)
    requires |slots| == FrameCount
    ensures |r.requested| == 0 && |r.images| == 0 && !r.completed && r.frame == 1
  {
    InitCanvasLoop(false, slots, 0, [], [])
  }

  /** Every resize after the as-written `initCanvas()` clears the canvas and draws
      nothing, whatever frame the render is asked for and whatever the browser loaded. */
  lemma InitCanvasNeverDraws(slots: seq<Slot>, frame: int, cw: nat, ch: nat)
    requires |slots| == FrameCount
    ensures RenderClearing(InitCanvasAsWritten(slots).images, frame, cw, ch) == Blank
  {
  }

  /** Every frame index names its own file. */
  lemma AllFilesNamed()
    ensures forall i :: 0 <= i < FrameCount ==> ParseImagePath(Files(i)) == Some(i + 1)
  {
    forall i | 0 <= i < FrameCount
      ensures ParseImagePath(Files(i)) == Some(i + 1)
    {
      FilesNames(i);
    }
  }

  /** The paths of the first `n` frames, in order. */
  function FilesUpTo(n: nat): (ps: seq<string>)
    ensures |ps| == n
  {
    seq(n, k requires 0 <= k => Files(k))
  }

  /** `initCanvas()` with a path function in scope: one request per frame, each for its
      own file, and `slots` (the states the browser reports for them) becomes the cache. */
  function InitCanvas(slots: seq<Slot>): (r: CanvasInit)
    requires |slots| == FrameCount
    ensures |r.requested| == FrameCount && r.images == slots && r.completed
    ensures forall i :: 0 <= i < FrameCount ==> ParseImagePath(r.requested[i]) == Some(i + 1)
  {
    AllFilesNamed();
    CanvasInit(FilesUpTo(FrameCount), slots, 1, true)
  }

  /** One more iteration appends the next frame's path. */
  lemma FilesUpToNext(n: nat)
    ensures FilesUpTo(n) + [Files(n)] == FilesUpTo(n + 1)
  {
    assert forall k :: 0 <= k < n + 1 ==> (FilesUpTo(n) + [Files(n)])[k] == FilesUpTo(n + 1)[k];
  }

  /** Run to the end with the path function in scope, the loop builds exactly the
      state `InitCanvas` describes. */
  lemma {:induction false} InitCanvasLoopRuns(slots: seq<Slot>, i: nat, requested: seq<string>, images: seq<Slot>)
    requires |slots| == FrameCount && i <= FrameCount
    requires requested == FilesUpTo(i) && images == slots[..i]
    ensures InitCanvasLoop(true, slots, i, requested, images) == InitCanvas(slots)
    decreases FrameCount - i
  {
    if i == FrameCount {
      assert images == slots;
      assert InitCanvas(slots) == CanvasInit(FilesUpTo(FrameCount), slots, 1, true);
    } else {
      FilesUpToNext(i);
      assert images + [slots[i]] == slots[..i + 1];
      InitCanvasLoopRuns(slots, i + 1, requested + [Files(i)], images + [slots[i]]);
    }
  }

  /** With the path function in scope, the first-frame `onload` (and any resize) draws
      `imageSeq.frame`, frame 1, stretched once its image is complete. */
  lemma InitCanvasDraws(slots: seq<Slot>, cw: nat, ch: nat)
    requires |slots| == FrameCount
    ensures Drawable(slots, 1) ==>
      RenderClearing(InitCanvas(slots).images, InitCanvas(slots).frame, cw, ch) == Shows(1, Stretch(cw, ch))
    ensures !Drawable(slots, 1) ==>
      RenderClearing(InitCanvas(slots).images, InitCanvas(slots).frame, cw, ch) == Blank
  {
  }

  /** `window.setAnimationFrame(n)`: accepts only 0 <= n < 300, then sets both frame
      variables and renders; any other `n` changes nothing. */
  function SetAnimationFrame(st: Legacy, images: seq<Slot>, n: int, cw: nat, ch: nat): (r: Legacy)
    ensures !InRange(n) ==> r == st
    ensures InRange(n) ==>
      && r.frame == n && r.currentFrame == Some(n) && r.paused == st.paused
      && r.surface == RenderKeeping(st.surface, images, n, cw, ch)
  {
    if 0 <= n < FrameCount then
      var st' := st.(frame := n, currentFrame := Some(n));
      st'.(surface := RenderKeeping(st'.surface, images, st'.frame, cw, ch))
    else st
  }

  /** Unlike a clamp, the setter is idempotent on rejected input and never moves the
      frame toward the range. */
  lemma SetAnimationFrameRejects(st: Legacy, images: seq<Slot>, cw: nat, ch: nat)
    ensures SetAnimationFrame(st, images, -5, cw, ch) == st
    ensures SetAnimationFrame(st, images, FrameCount + 10, cw, ch) == st
  {
  }

  // ---------------------------------------------------------------------------
  // Keyboard

  /** The argument the keydown listener passes to `setAnimationFrame` for `key`, given
      the frame it read, or None for keys it does not map to a frame. */
  function KeyTarget(frame: int, key: string): (r: Option<int>)
    ensures r.Some? <==> key in {"ArrowRight", "ArrowLeft", "ArrowUp", "ArrowDown", "Home", "End"}
    ensures InRange(frame) && r.Some? ==> InRange(r.value)
    ensures InRange(frame) && key == "ArrowRight" ==> r.value == (if frame == LastFrame then frame else frame + 1)
    ensures InRange(frame) && key == "ArrowLeft" ==> r.value == (if frame == 0 then frame else frame - 1)
    ensures InRange(frame) && key == "ArrowUp" ==> frame <= r.value <= frame + 10 && (r.value < frame + 10 ==> r.value == LastFrame)
    ensures InRange(frame) && key == "ArrowDown" ==> frame - 10 <= r.value <= frame && (r.value > frame - 10 ==> r.value == 0)
    ensures key == "Home" ==> r == Some(0)
    ensures key == "End" ==> r == Some(LastFrame)
  {
    if key == "ArrowRight" then Some(if frame + 1 < LastFrame then frame + 1 else LastFrame)
    else if key == "ArrowLeft" then Some(if frame - 1 > 0 then frame - 1 else 0)
    else if key == "ArrowUp" then Some(if frame + 10 < LastFrame then frame + 10 else LastFrame)
    else if key == "ArrowDown" then Some(if frame - 10 > 0 then frame - 10 else 0)
    else if key == "Home" then Some(0)
    else if key == "End" then Some(LastFrame)
    else None
  }

  predicate IsToggleKey(key: string) {
    key == "p" || key == "P"
  }

  /** `toggleAnimationPlay`: flips the paused flag and nothing else. */
  function ToggleAnimationPlay(st: Legacy): (r: Legacy)
    ensures r.paused == !st.paused
    ensures r == st.(paused := r.paused)
  {
    st.(paused := !st.paused)
  }

  /** Two toggles restore the original state. */
  lemma ToggleTwice(st: Legacy)
    ensures ToggleAnimationPlay(ToggleAnimationPlay(st)) == st
  {
  }

  /** The keydown listener of `setupKeyboardControls`. `exposed` says whether `canvas()`
      has already published `setAnimationFrame`/`toggleAnimationPlay` on `window`; the
      frame it starts from is `window.currentFrame || 0`. */
  function HandleKey(st: Legacy, key: string, images: seq<Slot>, cw: nat, ch: nat, exposed: bool): (r: Legacy)
    ensures !exposed ==> r == st
    ensures exposed && IsToggleKey(key) ==> r == ToggleAnimationPlay(st)
    ensures exposed && KeyTarget(st.currentFrame.GetOr(0), key).Some? ==>
      r == SetAnimationFrame(st, images, KeyTarget(st.currentFrame.GetOr(0), key).value, cw, ch)
    ensures !IsToggleKey(key) && KeyTarget(st.currentFrame.GetOr(0), key).None? ==> r == st
  {
    var frame := st.currentFrame.GetOr(0);
    if !exposed then st
    else if IsToggleKey(key) then ToggleAnimationPlay(st)
    else match KeyTarget(frame, key)
      case Some(n) => SetAnimationFrame(st, images, n, cw, ch)
      case None => st
  }

  /** The global frame is undefined or in range. */
  predicate Valid(st: Legacy) {
    st.currentFrame.Some? ==> InRange(st.currentFrame.value)
  }

  /** The player starts valid: `window.currentFrame` is still undefined. */
  lemma InitialValid()
    ensures Valid(Initial)
    ensures Initial.frame == 0 && !Initial.paused && Initial.surface == Blank
  {
  }

  /** From a valid state every navigation key is accepted by the setter, so the frame
      becomes exactly the key's target; validity is preserved by every key. */
  lemma HandleKeyNeverRejected(st: Legacy, key: string, images: seq<Slot>, cw: nat, ch: nat)
    requires Valid(st)
    ensures Valid(HandleKey(st, key, images, cw, ch, true))
    ensures !IsToggleKey(key) && KeyTarget(st.currentFrame.GetOr(0), key).Some? ==>
      HandleKey(st, key, images, cw, ch, true).frame == KeyTarget(st.currentFrame.GetOr(0), key).value
  {
  }

  /** The two players bind the same key names differently: ArrowDown is one frame
      forward in the component and ten frames back here. */
  lemma KeyMapsDisagree()
    ensures ModelAnimation.HandleKeyDown(false, 100, "ArrowDown").frame == 101
    ensures KeyTarget(100, "ArrowDown") == Some(90)
  {
  }

  // ---------------------------------------------------------------------------
  // Loading

  /** The text of the loading indicator. */
  datatype LoadingText = LoadingModel | Progress(pct: nat) | FirstImageError

  datatype Indicator = Indicator(text: LoadingText, attached: bool)

  /** Number of successful loads among `outcomes`. */
  function CountLoaded(outcomes: seq<bool>): (n: nat)
    ensures n <= |outcomes|
    ensures n == |outcomes| <==> forall i :: 0 <= i < |outcomes| ==> outcomes[i]
  {
    if |outcomes| == 0 then 0
    else CountLoaded(outcomes[..|outcomes| - 1]) + (if outcomes[|outcomes| - 1] then 1 else 0)
  }

  /** `Math.floor((loaded / frameCount) * 100)`, computed exactly. */
  function Percent(loaded: nat): (pct: nat)
    ensures loaded <= FrameCount ==> pct <= 100
    ensures pct == 100 <==> FrameCount <= loaded < FrameCount + FrameCount / 100
    ensures pct == ModelAnimation.Percent(loaded)
  {
    (loaded * 100) / FrameCount
  }

  /** A refreshed progress text is always a multiple of ten percent. */
  lemma RefreshedPercent(loaded: nat)
    requires loaded % ProgressEvery == 0 || loaded == FrameCount
    requires 0 < loaded <= FrameCount
    ensures Percent(loaded) % 10 == 0 && 10 <= Percent(loaded) <= 100
  {
    var k := loaded / ProgressEvery;
    assert loaded == ProgressEvery * k;
    assert loaded * 100 == FrameCount * (10 * k);
  }

  /** One `onload` callback: count it, refresh the text on multiples of 30 and at the
      end, and remove the indicator once every frame has loaded. */
  function OnLoad(loaded: nat, ind: Indicator): (r: (nat, Indicator))
    ensures r.0 == loaded + 1
    ensures r.1.attached <==> ind.attached && r.0 != FrameCount
    ensures r.0 % ProgressEvery == 0 || r.0 == FrameCount ==> r.1.text == Progress(Percent(r.0))
    ensures !(r.0 % ProgressEvery == 0 || r.0 == FrameCount) ==> r.1.text == ind.text
  {
    var n := loaded + 1;
    var text := if n % ProgressEvery == 0 || n == FrameCount then Progress(Percent(n)) else ind.text;
    (n, Indicator(text, ind.attached && n != FrameCount))
  }

  /** The text shown after `loaded` successful loads: the percentage at the last
      refresh point, a multiple of 30 loads, or the initial text before the first one. */
  function ShownText(loaded: nat): (t: LoadingText)
    ensures loaded < ProgressEvery <==> t == LoadingModel
    ensures loaded == FrameCount ==> t == Progress(100)
  {
    if loaded < ProgressEvery then LoadingModel
    else Progress(Percent(ProgressEvery * (loaded / ProgressEvery)))
  }

  /** Each counted load keeps the indicator's text equal to the shown text. */
  lemma OnLoadShowsText(loaded: nat, ind: Indicator)
    requires ind.text == ShownText(loaded)
    ensures OnLoad(loaded, ind).1.text == ShownText(loaded + 1)
  {
    if (loaded + 1) % ProgressEvery != 0 && loaded + 1 != FrameCount {
      assert (loaded + 1) / ProgressEvery == loaded / ProgressEvery;
    }
  }

  /** The shown text is a multiple of ten percent, never above the real progress. */
  lemma ShownTextBounds(loaded: nat)
    requires loaded <= FrameCount
    ensures ShownText(loaded).Progress? ==>
      ShownText(loaded).pct % 10 == 0 && 10 <= ShownText(loaded).pct <= Percent(loaded)
  {
    if loaded >= ProgressEvery {
      var k := loaded / ProgressEvery;
      assert ProgressEvery * k * 100 == FrameCount * (10 * k);
      RefreshedPercent(ProgressEvery * k);
    }
  }

  /** `preloadImages` after the first image loaded: `outcomes` are the background loads
      (frames 1..299) settled so far, in completion order. Only successes are counted,
      so the indicator goes away exactly when every frame loaded; one failure leaves it
      on screen for good. */
  method PreloadImages(outcomes: seq<bool>) returns (loaded: nat, ind: Indicator)
    requires |outcomes| <= FrameCount - 1
    ensures loaded == 1 + CountLoaded(outcomes)
    ensures ind.attached <==> loaded < FrameCount
    ensures |outcomes| == FrameCount - 1 ==>
      (!ind.attached <==> forall i :: 0 <= i < |outcomes| ==> outcomes[i])
    ensures ind.text == ShownText(loaded)
    ensures ind.text.Progress? ==>
      ind.text.pct % 10 == 0 && 10 <= ind.text.pct <= Percent(loaded)
  {
    loaded := 1;
    ind := Indicator(LoadingModel, true);
    var i := 0;
    while i < |outcomes|
      invariant 0 <= i <= |outcomes|
      invariant loaded == 1 + CountLoaded(outcomes[..i])
      invariant loaded <= 1 + i
      invariant ind.attached <==> loaded < FrameCount
      invariant ind.text == ShownText(loaded)
    {
      assert outcomes[..i + 1] == outcomes[..i] + [outcomes[i]];
      assert outcomes[..i + 1][..i] == outcomes[..i];
      if outcomes[i] {
        OnLoadShowsText(loaded, ind);
        var next := OnLoad(loaded, ind);
        loaded, ind := next.0, next.1;
      }
      i := i + 1;
    }
    assert outcomes[..|outcomes|] == outcomes;
    ShownTextBounds(loaded);
  }

  /** `imageSequence`: the first frame is requested alone. On success it is drawn
      stretched and the background preload starts; on failure the indicator shows an
      error and no other frame is requested. */
  method ImageSequence(firstLoaded: bool, outcomes: seq<bool>, cw: nat, ch: nat) returns (ind: Indicator, s: Surface)
    requires |outcomes| <= FrameCount - 1
    ensures !firstLoaded ==> ind == Indicator(FirstImageError, true) && s == Blank
    ensures firstLoaded ==> s == Shows(0, Stretch(cw, ch))
    ensures firstLoaded ==> (ind.attached <==> 1 + CountLoaded(outcomes) < FrameCount)
  {
    if !firstLoaded {
      ind, s := Indicator(FirstImageError, true), Blank;
    } else {
      s := Shows(0, Stretch(cw, ch));
      var loaded;
      loaded, ind := PreloadImages(outcomes);
    }
  }
}

=== FILE: model_animation.dfy ===
/** The React frame-sequence player (`ModelAnimation` component): a 300-frame image
    sequence whose current frame follows the page scroll position, with keyboard
    stepping, a preload counter that drives a loading overlay, and an aspect-preserving
    render step. DOM reads (scroll offset, heights, canvas size, image state) are
    parameters; image loads are a sequence of settle outcomes in completion order. */
module ModelAnimation {
  import opened Wrappers
  import opened FrameNaming
  import opened Canvas

  /** `frameCountRef`: frames male0001.png .. male0300.png. */
  const FrameCount: nat := 300
  const LastFrame: int := FrameCount - 1
  /** Frame index 0 is file number 1. */
  const StartFrame: nat := 1
  /** Pixels scrolled per keyboard step (`scrollSensitivityRef`). */
  const ScrollSensitivity: int := 15
  /** Share of the scrollable distance over which frames are spread; the rest pins the
      last frame. */
  const PinShare: real := 0.85

  // ---------------------------------------------------------------------------
  // Asset naming

  /** The `src` that `preloadImage(index)` requests. */
  function PreloadPath(index: nat): (p: string)
    ensures |p| >= |Prefix| + Width + |Suffix|
    ensures p[..|Prefix|] == Prefix
    ensures index < FrameCount ==> |p| == |Prefix| + Width + |Suffix|
  {
    ImagePath(index + StartFrame)
  }

  /** Every frame index names its own file, numbered from 1. */
  lemma PreloadPathNames(index: nat)
    requires index < FrameCount
    ensures ParseImagePath(PreloadPath(index)) == Some(index + 1)
  {
    ImagePathRoundTrip(index + StartFrame);
  }

  /** The first and last frames are male0001.png and male0300.png. */
  lemma PreloadPathExamples()
    ensures PreloadPath(0) == "/images/male0001.png"
    ensures PreloadPath(LastFrame) == "/images/male0300.png"
  {
    ImagePathExamples();
  }

  // ---------------------------------------------------------------------------
  // Player state

  /** The component's state and refs that the modelled logic reads or writes. */
  datatype Player = Player(
    frame: int,          // `currentFrame`
    isLoading: bool,     // `isLoading`
    progress: nat,       // `loadingProgress`, a percentage
    loadedCount: nat,    // the settle counter local to `preloadAllImages`
    scrollBound: bool,   // `animationInitializedRef.current` is set
    lastScroll: real)    // `lastScrollPositionRef`

  /** The state on the first render. */
  const Initial: Player := Player(0, true, 0, 0, false, 0.0)

  predicate InRange(frame: int) {
    0 <= frame < FrameCount
  }

  // ---------------------------------------------------------------------------
  // Keyboard stepping

  /** The page scroll `handleKeyDown` requests alongside a frame change. */
  datatype ScrollRequest = NoScroll | ScrollBy(dy: int) | ScrollToTop | ScrollToBottom

  datatype KeyOutcome = KeyOutcome(frame: int, scroll: ScrollRequest)

  predicate IsNextKey(key: string) {
    key == "ArrowDown" || key == "PageDown"
  }

  predicate IsPrevKey(key: string) {
    key == "ArrowUp" || key == "PageUp"
  }

  predicate IsNavigationKey(key: string) {
    IsNextKey(key) || IsPrevKey(key) || key == "Home" || key == "End"
  }

  /** `handleKeyDown` given the loading flag and frame it sees: one frame forward or
      back with saturation at both ends, or a jump to the first or last frame; every key
      is ignored while loading. */
  function HandleKeyDown(isLoading: bool, frame: int, key: string): (r: KeyOutcome)
    ensures isLoading || !IsNavigationKey(key) ==> r == KeyOutcome(frame, NoScroll)
    ensures InRange(frame) ==> InRange(r.frame)
    ensures !isLoading && IsNextKey(key) && InRange(frame) ==>
      r.scroll == ScrollBy(ScrollSensitivity) &&
      r.frame == (if frame == LastFrame then frame else frame + 1)
    ensures !isLoading && IsPrevKey(key) && InRange(frame) ==>
      r.scroll == ScrollBy(-ScrollSensitivity) &&
      r.frame == (if frame == 0 then frame else frame - 1)
    ensures !isLoading && key == "Home" ==> r == KeyOutcome(0, ScrollToTop)
    ensures !isLoading && key == "End" ==> r == KeyOutcome(LastFrame, ScrollToBottom)
  {
    if isLoading then KeyOutcome(frame, NoScroll)
    else if IsNextKey(key) then
      KeyOutcome(if frame + 1 < LastFrame then frame + 1 else LastFrame, ScrollBy(ScrollSensitivity))
    else if IsPrevKey(key) then
      KeyOutcome(if frame - 1 > 0 then frame - 1 else 0, ScrollBy(-ScrollSensitivity))
    else if key == "Home" then KeyOutcome(0, ScrollToTop)
    else if key == "End" then KeyOutcome(LastFrame, ScrollToBottom)
    else KeyOutcome(frame, NoScroll)
  }

  /** The frame after a run of key presses with loading finished. */
  function ApplyKeys(frame: int, keys: seq<string>): int
    decreases keys
  {
    if |keys| == 0 then frame
    else ApplyKeys(HandleKeyDown(false, frame, keys[0]).frame, keys[1..])
  }

  /** No run of key presses leaves the frame range. */
  lemma {:induction false} ApplyKeysInRange(frame: int, keys: seq<string>)
    requires InRange(frame)
    ensures InRange(ApplyKeys(frame, keys))
    decreases keys
  {
    if |keys| > 0 {
      ApplyKeysInRange(HandleKeyDown(false, frame, keys[0]).frame, keys[1..]);
    }
  }

  /** Below the last frame, a step back undoes a step forward; above the first frame,
      a step forward undoes a step back. */
  lemma StepsUndo(frame: int)
    ensures 0 <= frame < LastFrame ==>
      HandleKeyDown(false, HandleKeyDown(false, frame, "ArrowDown").frame, "ArrowUp").frame == frame
    ensures 0 < frame <= LastFrame ==>
      HandleKeyDown(false, HandleKeyDown(false, frame, "PageUp").frame, "PageDown").frame == frame
  {
  }

  // ---------------------------------------------------------------------------
  // Scroll position to frame

  /** The frame `handleScroll` computes, or None when it returns early because the
      page cannot scroll. Exact real arithmetic stands in for JavaScript doubles. */
  function ScrollFrame(scrollY: real, scrollHeight: real, viewportHeight: real): (r: Option<int>)
    ensures r.None? <==> scrollHeight - viewportHeight <= 0.0
    ensures r.Some? ==> r.value <= LastFrame
    ensures r.Some? ==> (r.value == LastFrame <==> scrollY >= PinShare * (scrollHeight - viewportHeight))
    ensures r.Some? && scrollY >= 0.0 ==> r.value >= 0
    ensures r.Some? && scrollY < PinShare * (scrollHeight - viewportHeight) ==>
      var pin := PinShare * (scrollHeight - viewportHeight);
      r.value as real * pin <= scrollY * LastFrame as real < (r.value + 1) as real * pin
  {
    var total := scrollHeight - viewportHeight;
    if total <= 0.0 then None
    else
      var pin := total * PinShare;
      var fraction := if scrollY >= pin then 1.0 else Min(scrollY / pin, 1.0);
      var index := (fraction * LastFrame as real).Floor;
      BandBounds(scrollY, pin, fraction, index);
      Some(if index < LastFrame then index else LastFrame)
  }

  /** Arithmetic behind `ScrollFrame`'s contract: where the floored interpolation falls. */
  lemma BandBounds(scrollY: real, pin: real, fraction: real, index: int)
    requires pin > 0.0
    requires fraction == if scrollY >= pin then 1.0 else Min(scrollY / pin, 1.0)
    requires index == (fraction * LastFrame as real).Floor
    ensures scrollY >= pin ==> index == LastFrame
    ensures scrollY < pin ==> index < LastFrame
    ensures scrollY >= 0.0 ==> index >= 0
    ensures scrollY < pin ==>
      index as real * pin <= scrollY * LastFrame as real < (index + 1) as real * pin
  {
    if scrollY < pin {
      var q := scrollY / pin;
      DivFacts(scrollY, pin);
      assert fraction == q;
      var x := q * LastFrame as real;
      assert index as real <= x < (index + 1) as real;
      ScaleBand(index, x, q, scrollY, pin);
    }
  }

  lemma DivFacts(s: real, pin: real)
    requires pin > 0.0
    ensures (s / pin) * pin == s
    ensures s < pin ==> s / pin < 1.0
    ensures s >= 0.0 ==> s / pin >= 0.0
  {
  }

  lemma ScaleBand(index: int, x: real, q: real, s: real, pin: real)
    requires pin > 0.0 && q * pin == s
    requires x == q * LastFrame as real
    requires index as real <= x < (index + 1) as real
    ensures index as real * pin <= s * LastFrame as real < (index + 1) as real * pin
  {
  }

  lemma MulLe(a: real, b: real, c: real)
    requires a <= b && c > 0.0
    ensures a * c <= b * c
  {
  }

  /** For fixed page and viewport heights, scrolling further never shows an earlier
      frame. */
  lemma ScrollFrameMonotone(s1: real, s2: real, scrollHeight: real, viewportHeight: real)
    requires s1 <= s2
    requires scrollHeight - viewportHeight > 0.0
    ensures ScrollFrame(s1, scrollHeight, viewportHeight).value
         <= ScrollFrame(s2, scrollHeight, viewportHeight).value
  {
    var pin := PinShare * (scrollHeight - viewportHeight);
    var r1 := ScrollFrame(s1, scrollHeight, viewportHeight).value;
    var r2 := ScrollFrame(s2, scrollHeight, viewportHeight).value;
    if s2 < pin {
      BandsOrdered(r1, r2, pin, s1 * LastFrame as real, s2 * LastFrame as real);
    }
  }

  /** Two band memberships in the same order give ordered band numbers. */
  lemma BandsOrdered(r1: int, r2: int, pin: real, a: real, b: real)
    requires pin > 0.0
    requires r1 as real * pin <= a <= b < (r2 + 1) as real * pin
    ensures r1 <= r2
  {
    if r1 > r2 {
      MulLe((r2 + 1) as real, r1 as real, pin);
    }
  }

  /** A page with 1000px of scrollable distance: the top shows frame 0, half of the
      85% budget shows frame 149, and 85% reaches the last frame. */
  lemma ScrollFrameExamples()
    ensures ScrollFrame(0.0, 1800.0, 800.0) == Some(0)
    ensures ScrollFrame(425.0, 1800.0, 800.0) == Some(149)
    ensures ScrollFrame(850.0, 1800.0, 800.0) == Some(LastFrame)
  {
  }

  /** There is no lower clamp: a negative scroll offset (overscroll) maps to a negative
      frame index. */
  lemma NegativeScrollNotClamped()
    ensures ScrollFrame(-850.0, 1800.0, 800.0) == Some(-LastFrame)
  {
  }

  // ---------------------------------------------------------------------------
  // Scroll handler

  /** `handleScroll` as written. `seenFrame` is the `currentFrame` its closure compares
      against; the handler is created inside the mount-only effect, so in the page that
      value is always the first render's frame, 0. */
  function HandleScroll(p: Player, seenFrame: int, scrollY: real, scrollHeight: real, viewportHeight: real): (q: Player)
    ensures ScrollFrame(scrollY, scrollHeight, viewportHeight).None? ==> q == p
    ensures ScrollFrame(scrollY, scrollHeight, viewportHeight).Some? ==>
      var k := ScrollFrame(scrollY, scrollHeight, viewportHeight).value;
      q == p.(frame := if seenFrame != k then k else p.frame, lastScroll := scrollY)
  {
    match ScrollFrame(scrollY, scrollHeight, viewportHeight)
    case None => p
    case Some(k) =>
      var p' := if seenFrame != k then p.(frame := k) else p;
      p'.(lastScroll := scrollY)
  }

  /** With the closure's frame fixed at 0, scrolling from frame 150 back to the top of
      the page leaves frame 150 on screen although the mapping asks for frame 0. */
  lemma StaleScrollKeepsFrame()
    ensures ScrollFrame(0.0, 1800.0, 800.0) == Some(0)
    ensures HandleScroll(Initial.(frame := 150, isLoading := false), Initial.frame, 0.0, 1800.0, 800.0).frame == 150
  {
  }

  /** The handler as evidently intended: it compares against the live frame. */
  function HandleScrollLive(p: Player, scrollY: real, scrollHeight: real, viewportHeight: real): (q: Player)
    ensures ScrollFrame(scrollY, scrollHeight, viewportHeight).None? ==> q == p
    ensures ScrollFrame(scrollY, scrollHeight, viewportHeight).Some? ==>
      q.frame == ScrollFrame(scrollY, scrollHeight, viewportHeight).value &&
      q == p.(frame := q.frame, lastScroll := scrollY)
  {
    HandleScroll(p, p.frame, scrollY, scrollHeight, viewportHeight)
  }

  /** A scroll event on a scrollable page as a record of its DOM reads. */
  datatype ScrollEvent = ScrollEvent(scrollY: real, scrollHeight: real, viewportHeight: real)

  /** A run of scroll events through the handler. `seen` is the frame its closure
      compares against: `Some(Initial.frame)` for the handler as written, `None` for the
      live comparison of `HandleScrollLive`. */
  function ApplyScrolls(p: Player, seen: Option<int>, events: seq<ScrollEvent>): Player
    decreases events
  {
    if |events| == 0 then p
    else
      var e := events[0];
      ApplyScrolls(HandleScroll(p, seen.GetOr(p.frame), e.scrollY, e.scrollHeight, e.viewportHeight), seen, events[1..])
  }

  /** Whichever frame the closure compares against, any run of scroll events with
      non-negative offsets keeps the frame in range and leaves the loading flag alone. */
  lemma {:induction false} ApplyScrollsInRange(p: Player, seen: Option<int>, events: seq<ScrollEvent>)
    requires InRange(p.frame)
    requires forall i :: 0 <= i < |events| ==> events[i].scrollY >= 0.0
    ensures InRange(ApplyScrolls(p, seen, events).frame)
    ensures ApplyScrolls(p, seen, events).isLoading == p.isLoading
    decreases events
  {
    if |events| > 0 {
      var e := events[0];
      ApplyScrollsInRange(HandleScroll(p, seen.GetOr(p.frame), e.scrollY, e.scrollHeight, e.viewportHeight), seen, events[1..]);
    }
  }

  // ---------------------------------------------------------------------------
  // Loading

  /** `Math.floor((loadedCount / totalImages) * 100)`, computed exactly. */
  function Percent(count: nat): (pct: nat)
    ensures count <= FrameCount ==> pct <= 100
    ensures pct == 100 <==> FrameCount <= count < FrameCount + FrameCount / 100
  {
    (count * 100) / FrameCount
  }

  /** One background load settles: the counter advances either way, the progress shown
      only on success. */
  function Settle(p: Player, loaded: bool): (q: Player)
    ensures q.loadedCount == p.loadedCount + 1
    ensures loaded ==> q.progress == Percent(q.loadedCount)
    ensures !loaded ==> q.progress == p.progress
    ensures q == p.(loadedCount := q.loadedCount, progress := q.progress)
  {
    var count := p.loadedCount + 1;
    p.(loadedCount := count, progress := if loaded then Percent(count) else p.progress)
  }

  /** What `renderCurrentFrame` leaves on the canvas for a complete frame: the frame,
      aspect-fitted and centred. */
  function Fitted(images: seq<Slot>, frame: int, cw: nat, ch: nat): (r: Surface)
    requires Drawable(images, frame)
    ensures r.Shows? && r.frame == frame && Inside(r.at, cw, ch)
  {
    Shows(frame, AspectFit(SlotAt(images, frame).width, SlotAt(images, frame).height, cw, ch))
  }

  /** `initScrollAnimation`: binds the scroll handler once, then forces a render;
      later calls do nothing. The forced render is the mount effect's
      `renderCurrentFrame`, whose closure sees the first render's frame, 0. */
  function InitScrollAnimation(p: Player, s: Surface, images: seq<Slot>, cw: nat, ch: nat): (r: (Player, Surface))
    ensures r.0.scrollBound
    ensures p.scrollBound ==> r == (p, s)
    ensures r.0 == p.(scrollBound := true)
    ensures !p.scrollBound && Drawable(images, Initial.frame) ==> r.1 == Fitted(images, Initial.frame, cw, ch)
    ensures !p.scrollBound && !Drawable(images, Initial.frame) ==> r.1 == s
  {
    if p.scrollBound then (p, s)
    else (p.(scrollBound := true), RenderCurrentFrame(s, images, Initial.frame, cw, ch))
  }

  /** The `Promise.allSettled` continuation: loading ends and the scroll animation
      starts with its forced render of frame 0; the loading flag's change then re-runs
      the `[currentFrame, isLoading]` effect, which renders the player's frame. */
  function AllSettled(p: Player, s: Surface, images: seq<Slot>, cw: nat, ch: nat): (r: (Player, Surface))
    ensures !r.0.isLoading && r.0.scrollBound
    ensures r.0.frame == p.frame && r.0.progress == p.progress && r.0.loadedCount == p.loadedCount
    ensures Drawable(images, p.frame) ==> r.1 == Fitted(images, p.frame, cw, ch)
    ensures !Drawable(images, p.frame) && !p.scrollBound && Drawable(images, Initial.frame) ==>
      r.1 == Fitted(images, Initial.frame, cw, ch)
    ensures !Drawable(images, p.frame) && (p.scrollBound || !Drawable(images, Initial.frame)) ==> r.1 == s
  {
    var bound := InitScrollAnimation(p.(isLoading := false), s, images, cw, ch);
    (bound.0, RenderOnChange(bound.1, bound.0.isLoading, images, bound.0.frame, cw, ch))
  }

  /** Position of the last successful load among `outcomes`, if any. */
  function LastSuccess(outcomes: seq<bool>): (j: Option<nat>)
    ensures j.Some? ==>
      (j.value < |outcomes| && outcomes[j.value] && forall k :: j.value < k < |outcomes| ==> !outcomes[k])
    ensures j.None? <==> forall k :: 0 <= k < |outcomes| ==> !outcomes[k]
  {
    if |outcomes| == 0 then None
    else if outcomes[|outcomes| - 1] then Some(|outcomes| - 1)
    else LastSuccess(outcomes[..|outcomes| - 1])
  }

  /** The progress shown after `outcomes` have settled: the percentage of the counter
      as it stood at the last success (the first frame plus every settle up to it), or
      0 before any success. */
  function ShownProgress(outcomes: seq<bool>): (pct: nat)
    ensures pct <= Percent(1 + |outcomes|)
  {
    match LastSuccess(outcomes)
    case None => 0
    case Some(j) => Percent(j + 2)
  }

  /** Settling one more load: a success shows the new counter's percentage, a failure
      keeps what was shown. */
  lemma ShownProgressStep(outcomes: seq<bool>, i: nat)
    requires i < |outcomes|
    ensures ShownProgress(outcomes[..i + 1]) ==
      if outcomes[i] then Percent(i + 2) else ShownProgress(outcomes[..i])
  {
    assert outcomes[..i + 1][..i] == outcomes[..i];
  }

  /** Once all 299 background loads have settled the progress shown is 100 exactly when
      the last to settle succeeded. */
  lemma ShownProgressSettled(outcomes: seq<bool>)
    requires |outcomes| == FrameCount - 1
    ensures ShownProgress(outcomes) == 100 <==> outcomes[|outcomes| - 1]
  {
  }

  /** `preloadAllImages` after the first image loaded: `outcomes` are the background
      loads (frames 1..299) that have settled so far, in completion order, true for a
      load and false for an error; `images` is the image cache when the last of them
      settles. Loading ends exactly when all of them have settled; the counter then
      equals the frame count whatever failed, but the progress shown reaches 100 only
      when the last load to settle succeeded. Until then the canvas `s` is untouched;
      afterwards frame 0 is drawn aspect-fitted if its image is complete. */
  method PreloadAllImages(s: Surface, images: seq<Slot>, outcomes: seq<bool>, cw: nat, ch: nat) returns (q: Player, r: Surface)
    requires |outcomes| <= FrameCount - 1
    ensures q.loadedCount == 1 + |outcomes|
    ensures q.isLoading <==> |outcomes| < FrameCount - 1
    ensures q.scrollBound <==> !q.isLoading
    ensures q.frame == Initial.frame
    ensures q.progress == ShownProgress(outcomes)
    ensures q.progress <= 100
    ensures (forall i :: 0 <= i < |outcomes| ==> !outcomes[i]) ==> q.progress == 0
    ensures |outcomes| == FrameCount - 1 ==> (q.progress == 100 <==> outcomes[|outcomes| - 1])
    ensures q.isLoading || !Drawable(images, Initial.frame) ==> r == s
    ensures !q.isLoading && Drawable(images, Initial.frame) ==> r == Fitted(images, Initial.frame, cw, ch)
  {
    q, r := Initial.(loadedCount := 1), s;
    var i := 0;
    while i < |outcomes|
      invariant 0 <= i <= |outcomes|
      invariant q == Initial.(loadedCount := 1 + i, progress := q.progress)
      invariant q.progress == ShownProgress(outcomes[..i])
    {
      ShownProgressStep(outcomes, i);
      q := Settle(q, outcomes[i]);
      i := i + 1;
    }
    assert outcomes[..|outcomes|] == outcomes;
    if |outcomes| == FrameCount - 1 {
      ShownProgressSettled(outcomes);
      var settled := AllSettled(q, r, images, cw, ch);
      q, r := settled.0, settled.1;
    }
  }

  /** Mounting: frame 0 is requested first. `images` is the image cache when the last
      background load settles; frame 0 counts as loaded exactly when its slot is
      complete. If it loads it is drawn stretched over the canvas and the background
      preload starts, and once every load has settled frame 0 is redrawn aspect-fitted;
      if it fails only an error is logged, no preload starts, and the loading overlay
      never goes away. */
  method Mount(images: seq<Slot>, outcomes: seq<bool>, cw: nat, ch: nat) returns (q: Player, s: Surface)
    requires |outcomes| <= FrameCount - 1
    ensures !Drawable(images, 0) ==> q == Initial && s == Blank
    ensures Drawable(images, 0) && |outcomes| < FrameCount - 1 ==> s == Shows(0, Stretch(cw, ch))
    ensures Drawable(images, 0) && |outcomes| == FrameCount - 1 ==> s == Fitted(images, 0, cw, ch)
    ensures Drawable(images, 0) ==> (q.isLoading <==> |outcomes| < FrameCount - 1)
    ensures Drawable(images, 0) ==> q.loadedCount == 1 + |outcomes|
  {
    if !Drawable(images, 0) {
      q, s := Initial, Blank;
    } else {
      q, s := PreloadAllImages(Shows(0, Stretch(cw, ch)), images, outcomes, cw, ch);
    }
  }

  // ---------------------------------------------------------------------------
  // Rendering

  /** `renderCurrentFrame`: draws the frame only when its image exists and is complete,
      scaled uniformly to fit and centred; otherwise the canvas keeps what it showed. */
  function RenderCurrentFrame(s: Surface, images: seq<Slot>, frame: int, cw: nat, ch: nat): (r: Surface)
    ensures !Drawable(images, frame) ==> r == s
    ensures Drawable(images, frame) ==>
      var img := SlotAt(images, frame);
      && r.Shows? && r.frame == frame
      && Inside(r.at, cw, ch)
      && r.at.x + r.at.w + r.at.x == cw as real && r.at.y + r.at.h + r.at.y == ch as real
      && r.at.w * img.height == r.at.h * img.width
      && (r.at.w == cw as real || r.at.h == ch as real)
  {
    match SlotAt(images, frame)
    case Complete(iw, ih) => Shows(frame, AspectFit(iw, ih, cw, ch))
    case _ => s
  }

  /** The effect on `[currentFrame, isLoading]`: the same guarded draw, and nothing at
      all while loading. */
  function RenderOnChange(s: Surface, isLoading: bool, images: seq<Slot>, frame: int, cw: nat, ch: nat): (r: Surface)
    ensures isLoading || !Drawable(images, frame) ==> r == s
    ensures !isLoading ==> r == RenderCurrentFrame(s, images, frame, cw, ch)
  {
    if isLoading then s else RenderCurrentFrame(s, images, frame, cw, ch)
  }

  /** Only complete images are ever on screen: if the surface showed a complete frame
      before, it does after any render attempt. */
  lemma RenderShowsOnlyComplete(s: Surface, isLoading: bool, images: seq<Slot>, frame: int, cw: nat, ch: nat)
    requires s.Shows? ==> Drawable(images, s.frame)
    ensures var r := RenderOnChange(s, isLoading, images, frame, cw, ch);
      r.Shows? ==> Drawable(images, r.frame)
  {
  }
}

=== FILE: navbar.dfy ===
/** The navigation bar: which section link is highlighted as the page scrolls, the
    click-to-section transition and the mobile drawer flag. The DOM is abstracted to a
    map from element id to `offsetTop`; an id without an element is absent from it. */
module Navbar {
  import opened Wrappers

  datatype Link = Link(name: string, href: string)

  /** `navLinks`, in display order. */
  const NavLinks: seq<Link> := [
    Link("Home", "#home"), Link("About", "#about"), Link("Skills", "#skills"),
    Link("Projects", "#projects"), Link("Contact", "#contact")
  ]

  /** `href.substring(1)`: the section id a link points at. */
  function SectionId(href: string): (id: string)
    ensures |href| >= 1 ==> href == [href[0]] + id
    ensures |href| == 0 ==> id == ""
  {
    if |href| >= 1 then href[1..] else ""
  }

  /** The in-page anchor of a section id. */
  function Href(id: string): (href: string)
    ensures |href| == |id| + 1 && href[0] == '#'
  {
    "#" + id
  }

  /** Stripping the leading `#` undoes forming the anchor. */
  lemma SectionIdOfHref(id: string)
    ensures SectionId(Href(id)) == id
  {
  }

  /** The section ids of `links`, in order. */
  function Ids(links: seq<Link>): (ids: seq<string>)
    ensures |ids| == |links|
    ensures forall i :: 0 <= i < |links| ==> ids[i] == SectionId(links[i].href)
  {
    seq(|links|, i requires 0 <= i < |links| => SectionId(links[i].href))
  }

  predicate Distinct(ids: seq<string>) {
    forall i, j :: 0 <= i < j < |ids| ==> ids[i] != ids[j]
  }

  /** The link ids are the section names and no two links share one. */
  lemma NavLinkIds()
    ensures Ids(NavLinks) == ["home", "about", "skills", "projects", "contact"]
    ensures Distinct(Ids(NavLinks))
  {
    var names := ["home", "about", "skills", "projects", "contact"];
    forall i | 0 <= i < |NavLinks|
      ensures SectionId(NavLinks[i].href) == names[i]
    {
      assert NavLinks[i].href == Href(names[i]);
      SectionIdOfHref(names[i]);
    }
    var ids := Ids(NavLinks);
    assert ids == names;
    // the five ids have five different lengths
    assert forall i, j :: 0 <= i < j < |ids| ==> |ids[i]| != |ids[j]|;
  }

  // ---------------------------------------------------------------------------
  // State

  datatype Nav = Nav(active: string, drawerOpen: bool)

  const Initial: Nav := Nav("home", false)

  /** Element id to `offsetTop` for every section present in the page. */
  type Layout = map<string, int>

  /** The line the scroll handler probes: a third of the way down the viewport. */
  function Probe(scrollY: real, innerHeight: real): (p: real)
    ensures 3.0 * (p - scrollY) == innerHeight
    ensures innerHeight >= 0.0 ==> scrollY <= p <= scrollY + innerHeight
  {
    scrollY + innerHeight / 3.0
  }

  /** The section exists and its top is at or above the probe line. */
  predicate Reached(layout: Layout, id: string, probe: real) {
    id in layout && layout[id] as real <= probe
  }

  /** Reference definition: the position of the last id whose section is reached. */
  function LastReached(ids: seq<string>, layout: Layout, probe: real): (r: Option<nat>)
    ensures r.Some? ==> r.value < |ids| && Reached(layout, ids[r.value], probe)
    ensures r.Some? ==> forall j :: r.value < j < |ids| ==> !Reached(layout, ids[j], probe)
    ensures r.None? ==> forall j :: 0 <= j < |ids| ==> !Reached(layout, ids[j], probe)
  {
    if |ids| == 0 then None
    else if Reached(layout, ids[|ids| - 1], probe) then Some(|ids| - 1)
    else LastReached(ids[..|ids| - 1], layout, probe)
  }

  /** The scroll handler: walks the links from last to first, skips sections missing
      from the page, and activates the first one (from the end) whose top is at or above
      `scrollY + innerHeight / 3`; if none is, the active section stays. */
  method HandleScroll(nav: Nav, ids: seq<string>, layout: Layout, scrollY: real, innerHeight: real)
    returns (r: Nav)
    ensures r.drawerOpen == nav.drawerOpen
    ensures (forall j :: 0 <= j < |ids| ==> !Reached(layout, ids[j], Probe(scrollY, innerHeight))) ==> r == nav
    ensures (exists j :: 0 <= j < |ids| && Reached(layout, ids[j], Probe(scrollY, innerHeight))) ==>
      exists k :: 0 <= k < |ids| && r.active == ids[k]
        && Reached(layout, ids[k], Probe(scrollY, innerHeight))
        && forall j :: k < j < |ids| ==> !Reached(layout, ids[j], Probe(scrollY, innerHeight))
    ensures match LastReached(ids, layout, Probe(scrollY, innerHeight))
      case Some(k) => r.active == ids[k]
      case None => r == nav
  {
    var probe := Probe(scrollY, innerHeight);
    r := nav;
    var i := |ids| - 1;
    while i >= 0
      invariant -1 <= i < |ids|
      invariant r == nav
      invariant forall j :: i < j < |ids| ==> !Reached(layout, ids[j], probe)
    {
      if ids[i] in layout && layout[ids[i]] as real <= probe {
        r := r.(active := ids[i]);
        LastReachedIs(ids, layout, probe, i);
        return;
      }
      i := i - 1;
    }
    LastReachedNone(ids, layout, probe);
  }

  lemma {:induction false} LastReachedIs(ids: seq<string>, layout: Layout, probe: real, k: nat)
    requires k < |ids| && Reached(layout, ids[k], probe)
    requires forall j :: k < j < |ids| ==> !Reached(layout, ids[j], probe)
    ensures LastReached(ids, layout, probe) == Some(k)
    decreases |ids|
  {
    if k < |ids| - 1 {
      LastReachedIs(ids[..|ids| - 1], layout, probe, k);
    }
  }

  lemma {:induction false} LastReachedNone(ids: seq<string>, layout: Layout, probe: real)
    requires forall j :: 0 <= j < |ids| ==> !Reached(layout, ids[j], probe)
    ensures LastReached(ids, layout, probe) == None
    decreases |ids|
  {
    if |ids| > 0 {
      LastReachedNone(ids[..|ids| - 1], layout, probe);
    }
  }

  /** `handleNavClick`: for a section present in the page, scroll to its top, make it
      active and close the drawer; for a missing one nothing happens. */
  function HandleNavClick(nav: Nav, layout: Layout, sectionId: string): (r: (Nav, Option<int>))
    ensures sectionId in layout ==> r.0 == Nav(sectionId, false) && r.1 == Some(layout[sectionId])
    ensures sectionId !in layout ==> r.0 == nav && r.1 == None
  {
    if sectionId in layout then
      var nav' := nav.(active := sectionId);
      (if nav'.drawerOpen then nav'.(drawerOpen := false) else nav', Some(layout[sectionId]))
    else (nav, None)
  }

  /** `handleDrawerToggle`: flips the drawer flag and nothing else. */
  function HandleDrawerToggle(nav: Nav): (r: Nav)
    ensures r.drawerOpen == !nav.drawerOpen && r.active == nav.active
  {
    nav.(drawerOpen := !nav.drawerOpen)
  }

  /** Two toggles restore the drawer. */
  lemma DrawerToggleTwice(nav: Nav)
    ensures HandleDrawerToggle(HandleDrawerToggle(nav)) == nav
  {
  }

  // ---------------------------------------------------------------------------
  // Highlighting

  /** A link is styled as selected exactly when its id is the active section. */
  predicate Highlighted(nav: Nav, link: Link)
    ensures |link.href| >= 1 && link.href[0] == '#' ==>
      (Highlighted(nav, link) <==> link.href == Href(nav.active))
  {
    nav.active == SectionId(link.href)
  }

  /** Since link ids are distinct, at most one link is highlighted in any state. */
  lemma AtMostOneHighlighted(nav: Nav)
    ensures forall i, j :: 0 <= i < j < |NavLinks| ==>
      !(Highlighted(nav, NavLinks[i]) && Highlighted(nav, NavLinks[j]))
  {
  }

  /** Clicking a link whose section exists highlights that link and no other. */
  lemma ClickHighlightsExactly(nav: Nav, layout: Layout, k: nat)
    requires k < |NavLinks| && SectionId(NavLinks[k].href) in layout
    ensures var r := HandleNavClick(nav, layout, SectionId(NavLinks[k].href)).0;
      forall j :: 0 <= j < |NavLinks| ==> (Highlighted(r, NavLinks[j]) <==> j == k)
  {
  }

  /** On the initial state the Home link is the highlighted one. */
  lemma InitialHighlightsHome()
    ensures forall j :: 0 <= j < |NavLinks| ==> (Highlighted(Initial, NavLinks[j]) <==> j == 0)
  {
  }
}

=== FILE: skills.dfy ===
/** The skills section: the listed skills with their proficiency percentages, the
    four-way colour classification of a proficiency, and the tab strip that shows one
    category's panel at a time. Skill descriptions are display text and not modelled. */
module Skills {
  import opened Wrappers

  /** The palette role a proficiency is drawn in, from lowest to highest. */
  datatype ColorRole = Error | Warning | Primary | Success

  function Rank(c: ColorRole): (n: nat)
    ensures n < 4
  {
    match c
    case Error => 0
    case Warning => 1
    case Primary => 2
    case Success => 3
  }

  /** The lower bounds of the Warning, Primary and Success bands. */
  const Thresholds: seq<int> := [60, 75, 90]

  /** `getProficiencyColor`: at least 90 is Success, at least 75 Primary, at least 60
      Warning, anything lower Error. */
  function ProficiencyColor(proficiency: int): (c: ColorRole)
    ensures c == Success <==> proficiency >= 90
    ensures c == Primary <==> 75 <= proficiency < 90
    ensures c == Warning <==> 60 <= proficiency < 75
    ensures c == Error <==> proficiency < 60
  {
    if proficiency >= 90 then Success
    else if proficiency >= 75 then Primary
    else if proficiency >= 60 then Warning
    else Error
  }

  /** How many of `ts` the proficiency reaches. */
  function ThresholdsMet(proficiency: int, ts: seq<int>): (n: nat)
    ensures n <= |ts|
    decreases ts
  {
    if |ts| == 0 then 0
    else (if proficiency >= ts[0] then 1 else 0) + ThresholdsMet(proficiency, ts[1..])
  }

  lemma {:induction false} ThresholdsMetMonotone(p: int, q: int, ts: seq<int>)
    requires p <= q
    ensures ThresholdsMet(p, ts) <= ThresholdsMet(q, ts)
    decreases ts
  {
    if |ts| > 0 {
      ThresholdsMetMonotone(p, q, ts[1..]);
    }
  }

  /** The tier of a proficiency is the number of thresholds it reaches. */
  lemma RankCountsThresholds(proficiency: int)
    ensures Rank(ProficiencyColor(proficiency)) == ThresholdsMet(proficiency, Thresholds)
  {
  }

  /** A higher proficiency never gets a lower tier. */
  lemma ProficiencyColorMonotone(p: int, q: int)
    requires p <= q
    ensures Rank(ProficiencyColor(p)) <= Rank(ProficiencyColor(q))
  {
  }

  // ---------------------------------------------------------------------------
  // Data

  datatype Skill = Skill(name: string, proficiency: int)
  datatype Category = Category(category: string, skills: seq<Skill>)

  /** `skillsData`. */
  const SkillsData: seq<Category> := [
    Category("Frontend", [
      Skill("React", 95), Skill("Next.js", 90), Skill("TypeScript", 85),
      Skill("Three.js", 80), Skill("Tailwind", 90)]),
    Category("Backend", [
      Skill("Node.js", 90), Skill("Express", 88), Skill("GraphQL", 85),
      Skill("Prisma", 82), Skill("MongoDB", 88)]),
    Category("Blockchain & Web3", [
      Skill("Ethereum", 85), Skill("Solana", 75), Skill("Smart Contracts", 85),
      Skill("Web3.js", 80), Skill("IPFS", 70)]),
    Category("Cybersecurity", [
      Skill("Penetration Testing", 80), Skill("Threat Modeling", 85),
      Skill("Secure APIs", 90), Skill("Network Security", 75)])
  ]

  /** The skill at position `j` of category `i` exists. */
  predicate Listed(data: seq<Category>, i: int, j: int) {
    0 <= i < |data| && 0 <= j < |data[i].skills|
  }

  /** Every listed proficiency is a percentage of at least 70, and IPFS sits at 70,
      so 70 is the minimum: no listed skill is drawn in the Error colour and the
      Warning band holds only IPFS. */
  lemma SkillsDataInvariants()
    ensures forall i, j :: Listed(SkillsData, i, j) ==> 70 <= SkillsData[i].skills[j].proficiency <= 100
    ensures SkillsData[2].skills[4] == Skill("IPFS", 70)
    ensures forall i, j :: Listed(SkillsData, i, j) ==> ProficiencyColor(SkillsData[i].skills[j].proficiency) != Error
    ensures forall i, j :: Listed(SkillsData, i, j) && ProficiencyColor(SkillsData[i].skills[j].proficiency) == Warning ==>
      SkillsData[i].skills[j].name == "IPFS"
  {
  }

  // ---------------------------------------------------------------------------
  // Tabs

  /** `selectedTab`. */
  datatype SkillsView = SkillsView(selectedTab: int)

  /** `handleTabChange`: the tab strip reports the clicked tab's index. */
  function HandleTabChange(v: SkillsView, newValue: int): (r: SkillsView)
    ensures r.selectedTab == newValue
  {
    v.(selectedTab := newValue)
  }

  /** A rendered skill row: name, percentage, colour and reveal delay in ms. */
  datatype SkillRow = SkillRow(name: string, proficiency: int, color: ColorRole, timeout: int)

  /** The rows of a shown panel; row k grows in after (k + 1) * 200 ms. */
  function Rows(skills: seq<Skill>): (rows: seq<SkillRow>)
    ensures |rows| == |skills|
    ensures forall k :: 0 <= k < |rows| ==>
      rows[k].name == skills[k].name && rows[k].proficiency == skills[k].proficiency
      && rows[k].color == ProficiencyColor(skills[k].proficiency)
    ensures |rows| > 0 ==> rows[0].timeout == 200
    ensures forall k, l :: 0 <= k < l < |rows| ==> rows[k].timeout < rows[l].timeout
    ensures forall k :: 0 <= k < |rows| - 1 ==> rows[k + 1].timeout == rows[k].timeout + 200
  {
    seq(|skills|, k requires 0 <= k < |skills| =>
      SkillRow(skills[k].name, skills[k].proficiency, ProficiencyColor(skills[k].proficiency), (k + 1) * 200))
  }

  /** The tab panel at `index`: hidden unless it is the selected one, and only then
      does it render its rows. */
  function Panel(v: SkillsView, index: nat): (content: Option<seq<SkillRow>>)
    requires index < |SkillsData|
    ensures content.Some? <==> v.selectedTab == index
    ensures content.Some? ==> content.value == Rows(SkillsData[index].skills)
  {
    if v.selectedTab != index then None else Some(Rows(SkillsData[index].skills))
  }

  /** After a tab change to a listed category, exactly that category's panel renders. */
  lemma ExactlyOnePanel(v: SkillsView, newValue: int)
    requires 0 <= newValue < |SkillsData|
    ensures forall index: nat :: index < |SkillsData| ==>
      (Panel(HandleTabChange(v, newValue), index).Some? <==> index == newValue)
  {
  }
}

=== FILE: theme.dfy ===
/** The theme provider: the colour mode is read once from client storage (falling back
    to dark), flipped by `toggleColorMode`, written back to storage after every change,
    and selects the dark or light palette. Storage is a map from key to string value. */
module Theme {
  import opened Wrappers

  const StorageKey: string := "theme-mode"

  type Storage = map<string, string>

  /** `localStorage.getItem(key)`: null when the key was never written. */
  function GetItem(storage: Storage, key: string): (v: Option<string>)
    ensures v.Some? <==> key in storage
    ensures v.Some? ==> v.value == storage[key]
  {
    if key in storage then Some(storage[key]) else None
  }

  /** `storedTheme || 'dark'`: the stored value when it is truthy (present and not the
      empty string), otherwise dark. */
  function InitialMode(stored: Option<string>): (mode: string)
    ensures mode != ""
    ensures stored.Some? && stored.value != "" ==> mode == stored.value
    ensures stored.None? || stored.value == "" ==> mode == "dark"
  {
    if stored.Some? && stored.value != "" then stored.value else "dark"
  }

  /** The toggle rule: light becomes dark, every other value becomes light. */
  function ToggleMode(mode: string): (r: string)
    ensures r == "light" || r == "dark"
    ensures r == "dark" <==> mode == "light"
  {
    if mode == "light" then "dark" else "light"
  }

  /** From either known mode two toggles return to it; from any other stored value one
      toggle gives light. */
  lemma ToggleModeTwice(mode: string)
    ensures mode == "light" || mode == "dark" ==> ToggleMode(ToggleMode(mode)) == mode
    ensures mode != "light" && mode != "dark" ==> ToggleMode(mode) == "light"
  {
  }

  datatype ThemeState = ThemeState(mode: string, storage: Storage)

  /** The persistence effect: `theme-mode` holds the current mode. */
  function Persist(t: ThemeState): (r: ThemeState)
    ensures r.mode == t.mode
    ensures r.storage.Keys == t.storage.Keys + {StorageKey}
    ensures r.storage[StorageKey] == t.mode
    ensures forall k :: k in t.storage && k != StorageKey ==> r.storage[k] == t.storage[k]
  {
    t.(storage := t.storage[StorageKey := t.mode])
  }

  /** The provider after its first render and effect. */
  function Mount(storage: Storage): (t: ThemeState)
    ensures t.mode == InitialMode(GetItem(storage, StorageKey))
    ensures Persisted(t)
  {
    Persist(ThemeState(InitialMode(GetItem(storage, StorageKey)), storage))
  }

  /** `toggleColorMode` followed by the persistence effect it triggers. */
  function ToggleColorMode(t: ThemeState): (r: ThemeState)
    ensures r.mode == ToggleMode(t.mode)
    ensures Persisted(r)
  {
    Persist(t.(mode := ToggleMode(t.mode)))
  }

  /** The stored preference equals the mode. */
  predicate Persisted(t: ThemeState) {
    StorageKey in t.storage && t.storage[StorageKey] == t.mode
  }

  /** The state after mounting and then `n` toggles. */
  function AfterToggles(storage: Storage, n: nat): ThemeState
  {
    if n == 0 then Mount(storage) else ToggleColorMode(AfterToggles(storage, n - 1))
  }

  /** In every reachable state the stored preference equals the mode, the mode is never
      empty, so a reload starts in the same mode; once toggled the mode is light or
      dark. */
  lemma {:induction false} ReachableStates(storage: Storage, n: nat)
    ensures Persisted(AfterToggles(storage, n))
    ensures InitialMode(GetItem(AfterToggles(storage, n).storage, StorageKey)) == AfterToggles(storage, n).mode
    ensures n > 0 ==> AfterToggles(storage, n).mode in {"light", "dark"}
    ensures forall k :: k in storage && k != StorageKey ==>
      k in AfterToggles(storage, n).storage && AfterToggles(storage, n).storage[k] == storage[k]
  {
    if n > 0 {
      ReachableStates(storage, n - 1);
    }
  }

  // ---------------------------------------------------------------------------
  // Palettes

  datatype Palette = Palette(
    primaryMain: string, primaryLight: string, primaryDark: string,
    secondaryMain: string, secondaryLight: string, secondaryDark: string,
    backgroundDefault: string, backgroundPaper: string, backgroundSurface: string,
    textPrimary: string, textSecondary: string)

  const DarkPalette: Palette := Palette(
    "#3990FF", "#6FB6FF", "#054DA7",
    "#D3232F", "#FF9192", "#A10E25",
    "#131318", "#25252D", "#1E1E24",
    "#F7F7F8", "#B9B9C6")

  const LightPalette: Palette := Palette(
    "#096BDE", "#ADDBFF", "#054DA7",
    "#D3232F", "#FFC7C5", "#A10E25",
    "#F7F7F8", "#FFFFFF", "#EBEBEF",
    "#131318", "#5A5A72")

  /** The palette spread into the theme: dark exactly for mode dark, light for every
      other value. */
  function PaletteFor(mode: string): (p: Palette)
    ensures p == DarkPalette <==> mode == "dark"
    ensures p == LightPalette <==> mode != "dark"
  {
    assert DarkPalette.primaryMain[1] != LightPalette.primaryMain[1];
    if mode == "dark" then DarkPalette else LightPalette
  }
}

=== FILE: wrappers.dfy ===
/** The optional-value type shared by every module: a JavaScript value that may be
    `undefined`/`null`, or an early return that produces nothing. */
module Wrappers {

  datatype Option<+T> = None | Some(value: T) {

    /** The wrapped value, or `default` when there is none (JavaScript's `x || d`
        for values that are never falsy when present). */
    function GetOr(default: T): (r: T)
      ensures Some? ==> r == value
      ensures None? ==> r == default
    {
      match this
      case Some(v) => v
      case None => default
    }
  }
}
